=== FILE: README.md ===
# Keychain manager credential gate — a Dafny model

This project models `KeychainManager.js`, a Scriptable helper that gates a script behind a
username/password login. It keeps accounts in the host keychain and can remember the last
login so that the prompt is skipped next time. The model covers:

- the keychain manager's store operations (`credentialsExist`, `saveCredentials`,
  `rememberCredentials`, `forgetCredentials`, `deleteCredentials`) as pure functions on an
  immutable `map<string, string>`. A read or a removal of an absent key is the host's error,
  which these functions catch;
- the two alert wrappers (`LoginAlert`, `DecisionAlert`) as the dialog they build plus a map
  from the chosen action index to the value they resolve to. The host reports ordinary actions
  as 0, 1, … and the cancel action as -1;
- `getCredentials()` as a function of a configuration (`SCRIPT_ID`, `REMEMBER_ENABLED`), the
  keychain, and a script of user responses. The k-th alert presented (counting from 0) reads the
  k-th response of the script, and an alert presented past the end of the script reads as pressing
  cancel. The function returns the result, the keychain afterwards, the alerts presented in order,
  and the unread rest of the script. A run reads nothing beyond the alerts it presents: responses
  appended to a script that covers them all change nothing and stay unread (`ReadsOnlyShown`).

Files: `wrappers.dfy` (Option, Result), `keychain.dfy` (the host store), `alerts.dfy`,
`keychain_manager.dfy` (operations and the flow), `manager_properties.dfy`,
`gate_properties.dfy`, `scenarios.dfy` (concrete runs with the script id `script_name`).

Keys are plain concatenations: `id + user`, `id + user + pass`, `id + "rememberUser"` and
`id + "rememberPass"`. So records can share keys, and the proofs make these consequences explicit:

- With an empty password the two account keys are one key. The second write then overwrites the
  user with `""`, so such an account never passes `credentialsExist` unless the user is empty too
  (`SaveThenExists`, `EmptyPasswordNeverLogsIn`). `deleteCredentials` then returns false after
  removing that one key.
- Every password of one user shares the user key. Several passwords per user therefore coexist
  (`SaveKeepsOtherPassword`). Cancelling the registration of a second password deletes the shared
  user key, and that ends the first account (`RollbackEndsSiblingAccount`,
  `CancelledRegistrationEndsSibling`, `BobLosesFirstPassword`).
- `forgetCredentials` stops at the first removal that throws. If the remembered user is absent
  but the remembered password is present, the password stays (`ForgetKeepsStrayPass`). So
  forgetting does not always leave both remember keys absent, though forgetting twice always
  equals forgetting once (`ForgetTwice`).
- Properties that relate different records (`SaveKeepsApartAccount`, `RegisterConfirmed`) state
  their non-collision assumptions as preconditions.

The model follows the code in two places where a reader might expect otherwise. A decision alert
given neither label shows a lone "OK" as action 0, and choosing it resolves to **true**
(KeychainManager.js:201-208), not false (`DecisionButtons`, `LoneOkIsYes`). A confirmed
registration is returned still tagged `new` (KeychainManager.js:85), so the flow's result keeps
the `Register` tag. With `REMEMBER_ENABLED` fixed at `true` the forget branch at
KeychainManager.js:32-34 is dead. The model makes the switch a parameter, so that branch is
modelled too (`Cleanup`).

## Model

| member | source | states |
|---|---|---|
| Keychain.Contains | KeychainManager.js:24-25 | `Keychain.contains` is true exactly when a read of the key succeeds |
| Keychain.Get | KeychainManager.js:91 | a read yields the stored value exactly when the key is present and fails otherwise |
| Keychain.Set | KeychainManager.js:100-101 | a write makes the key hold the value and keeps every other key |
| Keychain.Remove | KeychainManager.js:115-116 | a removal succeeds exactly when the key is present and then drops only that key |
| Alerts.LoginDialog | KeychainManager.js:138-156 | the login alert has a visible username field and a masked password field, the actions Login (0) and Register (1) and the cancel action "Cancel" (-1), and the title and message default to "Login" and "Enter your username and password" |
| Alerts.Drop | KeychainManager.js:158 | after `k` alerts the unread rest of the script is `k` responses shorter, or empty once the script is exhausted |
| Alerts.ReadAfterDrop | KeychainManager.js:158 | an alert reading the rest at position `i` sees the response the `k + i`-th alert of the whole script would see |
| Alerts.LoginAnswer | KeychainManager.js:158-173 | action 0 gives the typed pair, action 1 gives it tagged as a registration, any other index gives undefined |
| Alerts.LoginButtons | KeychainManager.js:154-173 | of the login alert's buttons exactly Cancel resolves to undefined; Login gives the typed pair and Register the typed pair tagged as new |
| Alerts.DecisionDialog | KeychainManager.js:186-203 | the decision alert offers action 0 exactly when a yes label is given or neither label is, the cancel action exactly when a no label is given, and shows the lone "OK" when neither is given |
| Alerts.DecisionAlert | KeychainManager.js:189-214 | throws "Undefined title or message" exactly when title or message is missing, otherwise resolves to true iff action 0 was chosen |
| Alerts.DecisionButtons | KeychainManager.js:195-214 | every button the decision alert offers resolves to true exactly when it is action 0: the yes button and the lone "OK" give true, the no button gives false |
| KeychainManager.CredentialsExist | KeychainManager.js:89-95 | true exactly when both account keys are present and hold the user and the password; a missing key gives false, never an error |
| KeychainManager.SaveCredentials | KeychainManager.js:97-102 | afterwards both account keys are present, the pass key holds the password and (for a non-empty password) the user key the user; existing values are overwritten and every other key is untouched |
| KeychainManager.RememberCredentials | KeychainManager.js:104-109 | afterwards the two remember keys hold the user and the password, and every other key is untouched |
| KeychainManager.RememberKeysDistinct | KeychainManager.js:107-108 | the two remember keys are different keys |
| KeychainManager.RemoveBoth | KeychainManager.js:113-132 | removing two keys in a try block reports true iff both are present and distinct; a missing first key changes nothing, otherwise both keys are gone and the rest is kept |
| KeychainManager.ForgetCredentials | KeychainManager.js:111-121 | true iff both remember keys were present; a missing user key skips the second removal; otherwise exactly the two remember keys are removed |
| KeychainManager.AccountKeysCoincide | KeychainManager.js:99-101 | the user key and the pass key coincide exactly when the password is empty |
| KeychainManager.DeleteCredentials | KeychainManager.js:123-132 | true iff both account keys were present and distinct (non-empty password); a missing user key changes nothing, otherwise exactly the account keys are removed |
| KeychainManager.SaveThenDelete | KeychainManager.js:97-132 | saving an account and then deleting it leaves the store before the save minus the two account keys |
| KeychainManager.FirstLogin | KeychainManager.js:36 | the first login alert has title "Login", the default message, and the actions Login, Register and Cancel |
| KeychainManager.RetryLogin | KeychainManager.js:44 | the alert after a wrong login has title "Error" and message "Wrong username or password", with the same three actions |
| KeychainManager.AlreadyExists | KeychainManager.js:51-55 | the already-exists notice has its title and message and a single "OK" action and no cancel |
| KeychainManager.ConfirmRegistration | KeychainManager.js:59-64 | the confirmation has title "New Account registered", "OK" as action 0 and "Cancel" as the cancel action |
| KeychainManager.AskRemember | KeychainManager.js:73-78 | the remember question has title "Remember your Login?", an empty message, "Yes" as action 0 and "No" as the cancel action |
| KeychainManager.Rejected | KeychainManager.js:39-43 | the loop repeats exactly on a plain login whose pair is not a stored account |
| KeychainManager.Bypassed | KeychainManager.js:23-26 | the prompt is skipped exactly when remember-me is on and reads of both remember keys succeed |
| KeychainManager.Cleanup | KeychainManager.js:32-34 | with remember-me on the store is untouched; with it off the remembered user is gone before prompting: if it was present both remember keys are removed, if it was absent nothing changes (a stray remembered password stays); every other key is kept |
| KeychainManager.WrongLoginLoop | KeychainManager.js:39-45 | entered after `pos` alerts, the loop ends only on undefined, a registration or a matching login; an answer that is not a rejected login leaves it at once with nothing presented; otherwise it presents one retry alert per iteration, each answer read before the last was a rejected login, and the answer returned is the one the last retry alert read |
| KeychainManager.RememberStep | KeychainManager.js:71-82 | with remember-me on one remember question is presented, and the pair is remembered if and only if that alert reads a yes; otherwise the store is untouched; the result is passed through |
| KeychainManager.Registration | KeychainManager.js:48-70 | an existing account is refused with one notice, undefined and the store untouched; a new account whose confirmation is not answered "OK" returns undefined with the store before the save minus both account keys, and one whose confirmation is answered "OK" is returned as the registration; a returned registration was new and its confirmation answered "OK" |
| KeychainManager.NewAccount | KeychainManager.js:58-70 | for a new account, a confirmation not answered "OK" returns undefined and leaves the store minus both account keys; one answered "OK" returns the registration after the confirmation and, if enabled, the remember question |
| KeychainManager.FirstRound | KeychainManager.js:36-45 | the first login alert is presented first and only retry alerts follow; the answer to every alert but the last is a rejected login; the exit answer is the answer to the last alert and is not a rejected login |
| KeychainManager.Settle | KeychainManager.js:47-85 | after the loop the result is the loop's answer or undefined; a login is always returned, and a new registration whose confirmation reads "OK" is returned; undefined appends nothing and leaves the store; a login appends exactly the remember question if enabled; a registration appends the already-exists notice, the confirmation, or the confirmation and (if enabled) the remember question; a returned registration was new and its confirmation read "OK" |
| KeychainManager.Prompted | KeychainManager.js:36-85 | the prompting flow presents the default login alert first, and the unread rest of the script is what follows one response per alert presented |
| KeychainManager.GetCredentials | KeychainManager.js:22-86 | nothing is presented exactly when remember-me is on and both remember keys exist, and then the remembered pair is returned with store and script untouched; otherwise the first login alert comes first; one response is consumed per alert presented |
| ManagerProperties.SaveThenExists | KeychainManager.js:89-102 | after saving (user, pass) the account exists iff the password is non-empty or the user is empty |
| ManagerProperties.SaveKeepsOtherPassword | KeychainManager.js:97-102 | saving a second non-empty password for a user keeps the first one valid and makes the new one valid |
| ManagerProperties.SaveKeepsApartAccount | KeychainManager.js:97-102 | saving an account does not change whether an account with disjoint keys exists |
| ManagerProperties.RememberKeepsApartAccount | KeychainManager.js:106-109 | remembering a pair does not change whether an account whose keys avoid the remember keys exists |
| ManagerProperties.RollbackRemovesAccount | KeychainManager.js:99-132 | save then delete leaves the original store minus the two account keys, the account no longer exists, and the delete reports true iff the password is non-empty |
| ManagerProperties.RollbackEndsSiblingAccount | KeychainManager.js:124-132 | save then delete of (user, pass) also ends an existing account (user, other) |
| ManagerProperties.ForgetTwice | KeychainManager.js:113-121 | forgetting twice leaves the same store as forgetting once, and the second call returns false |
| ManagerProperties.ForgetFrame | KeychainManager.js:113-121 | forgetting neither adds, removes nor changes any key other than the two remember keys |
| ManagerProperties.ForgetKeepsStrayPass | KeychainManager.js:113-121 | with the remembered user absent and the remembered password present, forgetting returns false and keeps the password |
| ManagerProperties.RememberReadsBack | KeychainManager.js:106-121 | after remembering, both remember keys read back the pair and forgetting then succeeds |
| GateProperties.DialogsDistinct | KeychainManager.js:36-78 | each of the ten pairs among the login, error, already-exists, confirmation and remember alerts are different dialogs |
| GateProperties.PromptedLoginIsRegistered | KeychainManager.js:36-47 | a plain login returned after prompting matches an account of the store prompted on |
| GateProperties.PromptedRegistrationIsConfirmed | KeychainManager.js:49-69 | a registration returned after prompting was new to the store, and some presented alert is the confirmation whose response in the script is "OK" |
| GateProperties.DefinedResultProvenance | KeychainManager.js:22-85 | a defined result is the remembered pair with nothing presented and the store untouched, a login matching an account, or a new registration whose presented confirmation read "OK" from the script |
| GateProperties.NoRememberPromptWhenDisabled | KeychainManager.js:72-82 | with remember-me off the remember alert is never presented |
| GateProperties.RememberExactlyOnYes | KeychainManager.js:22-85 | on a defined result after prompting, the final store is the store the login was accepted in or the registration saved in, with the result remembered if and only if remember-me is on and the remember question, the last alert, read a yes; with remember-me off it is that store unchanged |
| GateProperties.RegistrationRemembersOnYes | KeychainManager.js:58-82 | after a returned registration with remember-me on, the confirmation and the remember question were presented and the store is the saved store with the pair remembered if and only if the remember question read a yes; with it off only the confirmation was presented and the store is the saved store |
| GateProperties.FirstLoginAccepted | KeychainManager.js:36-85 | a plain login on the first alert is returned exactly when it matches an account: then after the remember question (if enabled), with the pair remembered on a yes and the store otherwise untouched; a non-matching one is followed by the error alert |
| GateProperties.UndefinedWritesNothing | KeychainManager.js:47-85 | when the flow prompts and returns undefined, the final store is the cleaned-up store, or that store minus the two account keys of a registration whose confirmation was declined; nothing is remembered |
| GateProperties.PromptedLoginRemembersOnYes | KeychainManager.js:36-82 | after a returned login, with remember-me on the last alert is the remember question and the store is the prompted store with the login remembered if and only if it read a yes; with it off the store is the prompted store |
| GateProperties.PromptedRegistrationRemembersOnYes | KeychainManager.js:47-82 | after a returned registration, with remember-me on the last alert is the remember question and the store is the saved store with the registration remembered if and only if it read a yes; with it off the store is the saved store |
| GateProperties.RegistrationRunRemembers | KeychainManager.js:47-82 | a run made of the login alerts followed by the registration branch satisfies the remember-on-yes relation for the saved store |
| GateProperties.YesSkipsNextLogin | KeychainManager.js:23-31 | with remember-me on, after a run that returned a result and whose last alert read a yes, the next run with any script returns the same pair as a plain login with nothing presented, nothing read and the store unchanged |
| GateProperties.RememberRoundTrip | KeychainManager.js:23-31 | after rememberCredentials(user, pass) with remember-me on, the flow returns exactly that pair, presents nothing, reads nothing and leaves the store unchanged |
| GateProperties.RejectedLoginsExhaustLoop | KeychainManager.js:39-45 | fed only rejected logins from position `pos` on, the loop presents one retry alert per remaining response plus one for the final dismissal and ends with undefined |
| GateProperties.WrongLoginsKeepPrompting | KeychainManager.js:36-45 | when every response is a plain login that matches no account, the flow presents one error alert per response, reads the whole script and returns undefined with the store unchanged |
| GateProperties.RegisterFirst | KeychainManager.js:36-49 | a Register press on the first alert skips the loop: the run is the registration branch on the typed pair after the first login alert, reading from the second response on |
| GateProperties.RegisterExisting | KeychainManager.js:49-57 | registering an existing account returns undefined after the "already exists" notice and leaves the store unchanged |
| GateProperties.RegisterDeclined | KeychainManager.js:58-69 | registering a new account and cancelling the confirmation returns undefined and leaves the store minus both account keys |
| GateProperties.RegisterConfirmed | KeychainManager.js:58-85 | registering a new account with a non-empty password and keys apart from the remember keys, then confirming, returns the registration and the account exists afterwards |
| GateProperties.ConfirmedRegistrationExists | KeychainManager.js:58-82 | a confirmed new registration with a non-empty password and keys apart from the remember keys is returned and exists afterwards, with the confirmation and (if enabled) the remember alert presented |
| GateProperties.CancelledRegistrationEndsSibling | KeychainManager.js:58-69 | cancelling the registration of a second password for an existing user ends the existing account |
| GateProperties.LoopReadsOnlyShown | KeychainManager.js:39-45 | the wrong-login loop whose alerts all read responses the script has is the same loop on any longer script |
| GateProperties.SettleReadsOnlyShown | KeychainManager.js:47-82 | the registration or remember step whose alerts all read responses the script has is the same step on any longer script |
| GateProperties.PromptedReadsOnlyShown | KeychainManager.js:36-85 | the prompting flow on a script covering all its alerts has the same result, store and alerts on any longer script |
| GateProperties.ReadsOnlyShown | KeychainManager.js:22-86 | getCredentials() reads no response beyond the alerts it presents: when the script covers every alert, appended responses change neither result, store nor alerts and are left unread |
| Scenarios.AliceKeepsBeingAsked | KeychainManager.js:36-45 | an unregistered login is answered with the error alert until the user cancels |
| Scenarios.BobLogsIn | KeychainManager.js:36-85 | bob's stored account lets him in on the first alert; declining to be remembered leaves the keychain unchanged |
| Scenarios.BobRegistersAndConfirms | KeychainManager.js:58-85 | a confirmed registration is returned and stored under its two account keys |
| Scenarios.BobRegistersAndCancels | KeychainManager.js:58-69 | a cancelled registration leaves an empty keychain empty |
| Scenarios.BobLosesFirstPassword | KeychainManager.js:58-69 | cancelling a second-password registration for bob ends bob's first account |
| Scenarios.CarolIsRemembered | KeychainManager.js:23-31 | a remembered pair is returned without any alert |
| Scenarios.LoneOkIsYes | KeychainManager.js:189-208 | a decision alert with no labels shows only "OK", which resolves to true; a missing title throws |
| Scenarios.ErinIsRememberedNextTime | KeychainManager.js:22-85 | erin registers, confirms and says yes: her account and the remembered pair are stored, and the next run returns her pair with no alert and no response read |
| Scenarios.EmptyPasswordNeverLogsIn | KeychainManager.js:58-101 | a registration with an empty password is returned yet does not pass the login check |

## Left out

- Alert rendering, the text-field UI and the Promise/`await` plumbing. Each alert presentation reads one scripted response: the reported action index and the two text-field contents.
- The host keychain's persistence and security. It is an immutable map whose `get` and `remove` fail on an absent key; a failing `set` is not modelled.
- The unbounded retry loop. The model terminates because it reads from a finite script, and an exhausted script reads as pressing cancel.
- `SCRIPT_ID` and `REMEMBER_ENABLED` as module constants. They are the fields of `Config`.
- The `null` versus `undefined` distinction for optional alert arguments. Only "given" and "not given" are modelled.
- A thrown `DecisionAlert` inside `getCredentials`. Every call there passes a title and a message, so the flow uses the resolved boolean directly.

=== FILE: alerts.dfy ===
/**
 The two alert wrappers of the keychain manager: the login alert (username and
 password fields, Login / Register / Cancel) and the decision alert (optional
 yes and no buttons). The host's alert reports the index of the chosen action:
 ordinary actions are numbered from 0 in the order they were added, and the
 cancel action reports -1. A presentation is modelled as reading one scripted
 user response.
 */
module Alerts {
  import opened Wrappers

  /** A text field of an alert, visible or masked, with its placeholder. */
  datatype TextField = Visible(placeholder: string) | Masked(placeholder: string)

  /** What an alert shows: title, message, text fields, the ordinary actions in
      the order they were added, and the optional cancel action. */
  datatype Dialog = Dialog(title: string, message: string, fields: seq<TextField>,
                           actions: seq<string>, cancel: Option<string>)

  /** The index the host reports when the cancel action is chosen. */
  const CancelIndex: int := -1

  /** The indices 0 .. n-1. */
  function Indices(n: nat): (r: set<int>)
    ensures forall i :: i in r <==> 0 <= i < n
  {
    if n == 0 then {} else Indices(n - 1) + {n - 1}
  }

  /** The action indices a presented dialog can report. */
  function Choices(d: Dialog): set<int>
  {
    Indices(|d.actions|) + (if d.cancel.Some? then {CancelIndex} else {})
  }

  /** One user interaction with a presented alert: the reported action index
      and the contents of the two text fields when the alert closed (an alert
      without text fields ignores them). */
  datatype Response = Response(action: int, user: string, pass: string)

  /** The user dismissing an alert with its cancel action. */
  const Dismissal: Response := Response(CancelIndex, "", "")

  /** The script left after `k` alerts have read from it: each presentation
      consumes the front response while there is one, so the `i`-th alert
      presented afterwards reads what the `k + i`-th would have read. */
  function Drop(script: seq<Response>, k: nat): (r: seq<Response>)
    ensures |r| == if k <= |script| then |script| - k else 0
  {
    if k <= |script| then script[k..] else []
  }

  /** The response the alert at position `i` of a run reads: the script's
      `i`-th response, or a dismissal once the script is exhausted. */
  function AnswerTo(script: seq<Response>, i: nat): Response
  {
    if i < |script| then script[i] else Dismissal
  }

  /** Dropping `k` responses shifts every later read by `k`: an alert that
      reads the rest at position `i` sees the response at `k + i`. */
  lemma ReadAfterDrop(script: seq<Response>, k: nat, i: nat)
    ensures AnswerTo(Drop(script, k), i) == AnswerTo(script, k + i)
  {
  }

  /** A username/password pair as the alerts hand it over. */
  datatype Credential = Credential(user: string, pass: string)

  /** The value a login alert resolves to: a plain credential, a credential
      tagged `new` (a registration request), or `undefined`. */
  datatype Entry = NoEntry | Login(cred: Credential) | Register(cred: Credential)

  const DefaultLoginTitle: string := "Login"
  const DefaultLoginMessage: string := "Enter your username and password"

  /** The login alert as built for an optional title and message: a visible
      username and a masked password field, the actions Login (0) and
      Register (1) and the cancel action, and the default title and message
      where none is given. */
  function LoginDialog(title: Option<string>, message: Option<string>): (d: Dialog)
    ensures d.title == (if title.Some? then title.value else DefaultLoginTitle)
    ensures d.message == (if message.Some? then message.value else DefaultLoginMessage)
    ensures d.fields == [Visible("username"), Masked("password")]
    ensures Choices(d) == {0, 1, CancelIndex}
    ensures d.actions == ["Login", "Register"]
    ensures d.cancel == Some("Cancel")
  {
    assert Indices(2) == {0, 1};
    Dialog(title.GetOr(DefaultLoginTitle), message.GetOr(DefaultLoginMessage),
           [Visible("username"), Masked("password")],
           ["Login", "Register"], Some("Cancel"))
  }

  /** What the login alert resolves to for the user's response. */
  function LoginAnswer(r: Response): (e: Entry)
    ensures e.Login? <==> r.action == 0
    ensures e.Register? <==> r.action == 1
    ensures e.NoEntry? <==> r.action != 0 && r.action != 1
    ensures !e.NoEntry? ==> e.cred == Credential(r.user, r.pass)
  {
    if r.action == 0 then Login(Credential(r.user, r.pass))
    else if r.action == 1 then Register(Credential(r.user, r.pass))
    else NoEntry
  }

  /** Every index the login alert can report leads to its own kind of answer,
      carrying the typed text unchanged: Login (0) a plain credential,
      Register (1) a registration, Cancel (-1) undefined. */
  lemma LoginButtons(title: Option<string>, message: Option<string>, user: string, pass: string)
    ensures forall a :: a in Choices(LoginDialog(title, message)) ==>
              (LoginAnswer(Response(a, user, pass)).NoEntry? <==> a == CancelIndex)
    ensures LoginAnswer(Response(0, user, pass)) == Login(Credential(user, pass))
    ensures LoginAnswer(Response(1, user, pass)) == Register(Credential(user, pass))
    ensures LoginAnswer(Response(CancelIndex, user, pass)) == NoEntry
  {
  }

  /** The decision alert as built for defined title and message: the yes
      button (if any) is the first ordinary action, the no button (if any) the
      cancel action, and a lone "OK" action is added when neither is given. */
  function DecisionDialog(title: string, message: string, yes: Option<string>, no: Option<string>): (d: Dialog)
    ensures d.title == title && d.message == message && d.fields == []
    ensures Choices(d) == (if yes.Some? || no.None? then {0} else {}) + (if no.Some? then {CancelIndex} else {})
    ensures yes.Some? ==> d.actions == [yes.value]
    ensures yes.None? && no.None? ==> d.actions == ["OK"]
    ensures d.cancel == no
  {
    assert Indices(1) == {0};
    Dialog(title, message, [],
           (if yes.Some? then [yes.value] else []) + (if yes.None? && no.None? then ["OK"] else []),
           no)
  }

  /** The only response a decision alert treats as "yes". */
  predicate Accepted(r: Response)
  {
    r.action == 0
  }

  /** `new DecisionAlert(title, message, yes, no)` answered with `r`: throws when
      title or message is undefined, else resolves to whether action 0 was chosen. */
  function DecisionAlert(title: Option<string>, message: Option<string>,
                         yes: Option<string>, no: Option<string>, r: Response): (o: Result<bool, string>)
    ensures o.Failure? <==> title.None? || message.None?
    ensures o.Failure? ==> o.error == "Undefined title or message"
    ensures o.Success? ==> (o.value <==> r.action == 0)
  {
    if title.None? || message.None? then Failure("Undefined title or message")
    else Success(Accepted(r))
  }

  /** What the buttons of a decision alert resolve to: the yes button and the
      lone "OK" (both index 0) to true, the no button (the cancel action) to
      false. */
  lemma DecisionButtons(title: string, message: string, yes: Option<string>, no: Option<string>)
    ensures forall a :: a in Choices(DecisionDialog(title, message, yes, no)) ==>
              DecisionAlert(Some(title), Some(message), yes, no, Response(a, "", "")) == Success(a == 0)
    ensures yes.Some? || no.None? ==>
              DecisionAlert(Some(title), Some(message), yes, no, Response(0, "", "")) == Success(true)
    ensures no.Some? ==> DecisionAlert(Some(title), Some(message), yes, no, Dismissal) == Success(false)
  {
  }
}

=== FILE: gate_properties.dfy ===
/**
 Properties of the login flow `getCredentials()`: where a defined result can
 come from, the wrong-login loop, the three registration outcomes, when the
 remembered pair is written, and the remember-me round trip.
 */
module GateProperties {
  import opened Wrappers
  import opened Keychain
  import opened Alerts
  import opened KeychainManager
  import opened ManagerProperties

  /** The five alerts the flow presents are pairwise different dialogs. */
  lemma DialogsDistinct()
    ensures FirstLogin() != RetryLogin() && FirstLogin() != AlreadyExists()
    ensures FirstLogin() != ConfirmRegistration() && FirstLogin() != AskRemember()
    ensures RetryLogin() != AlreadyExists() && RetryLogin() != ConfirmRegistration()
    ensures RetryLogin() != AskRemember()
    ensures AlreadyExists() != ConfirmRegistration() && AlreadyExists() != AskRemember()
    ensures ConfirmRegistration() != AskRemember()
  {
    assert FirstLogin().title[0] == 'L';
    assert RetryLogin().title[0] == 'E';
    assert AlreadyExists().title[0] == 'E';
    assert ConfirmRegistration().title[0] == 'N';
    assert AskRemember().title[0] == 'R';
    assert |RetryLogin().fields| == 2 && AlreadyExists().fields == [];
  }

  /** The prompting flow is the first round followed by the step settling its
      exit answer, the second reading from the position the first ends at. */
  lemma PromptedSplit(cfg: Config, s: Store, script: seq<Response>) returns (l: LoopExit, t: Step)
    ensures l == FirstRound(cfg.scriptId, s, script)
    ensures t == Settle(cfg, s, l.entry, script, |l.shown|)
    ensures Prompted(cfg, s, script).result == t.result
    ensures Prompted(cfg, s, script).store == t.store
    ensures Prompted(cfg, s, script).shown == l.shown + t.shown
  {
    l := FirstRound(cfg.scriptId, s, script);
    t := Settle(cfg, s, l.entry, script, |l.shown|);
  }

  /** A plain login returned by the prompting flow matches an account of the
      store it prompted on. */
  lemma PromptedLoginIsRegistered(cfg: Config, s: Store, script: seq<Response>)
    ensures var run := Prompted(cfg, s, script);
            run.result.Login? ==> Registered(cfg.scriptId, s, run.result.cred.user, run.result.cred.pass)
  {
    var l, t := PromptedSplit(cfg, s, script);
    if l.entry.Register? {
      assert t.result.Register? || t.result.NoEntry?;
    }
  }

  /** A registration returned by the prompting flow was new to the store, and
      the confirmation alert was presented and answered with "OK". */
  lemma PromptedRegistrationIsConfirmed(cfg: Config, s: Store, script: seq<Response>)
    ensures var run := Prompted(cfg, s, script);
            run.result.Register? ==>
              && !Registered(cfg.scriptId, s, run.result.cred.user, run.result.cred.pass)
              && exists j :: && 0 <= j < |script| && j < |run.shown|
                             && run.shown[j] == ConfirmRegistration() && Accepted(script[j])
  {
    var l, t := PromptedSplit(cfg, s, script);
    if t.result.Register? {
      var j := |l.shown|;
      assert Prompted(cfg, s, script).shown[j] == t.shown[0];
      assert AnswerTo(script, j) == script[j];
    }
  }

  /** Where a defined result of `getCredentials()` comes from: the remembered
      pair (store untouched, nothing presented), a login matching an account,
      or a registration that was new and whose confirmation was answered "OK". */
  lemma DefinedResultProvenance(cfg: Config, s: Store, script: seq<Response>)
    ensures var run := GetCredentials(cfg, s, script);
            run.result != NoEntry ==>
              || (&& Bypassed(cfg, s)
                  && run.result == Login(Credential(s[RememberUserKey(cfg.scriptId)], s[RememberPassKey(cfg.scriptId)]))
                  && run.store == s && run.shown == [])
              || (&& run.result.Login?
                  && Registered(cfg.scriptId, Cleanup(cfg, s), run.result.cred.user, run.result.cred.pass))
              || (&& run.result.Register?
                  && !Registered(cfg.scriptId, Cleanup(cfg, s), run.result.cred.user, run.result.cred.pass)
                  && exists j :: && 0 <= j < |script| && j < |run.shown|
                                 && run.shown[j] == ConfirmRegistration() && Accepted(script[j]))
  {
    if !Bypassed(cfg, s) {
      PromptedLoginIsRegistered(cfg, Cleanup(cfg, s), script);
      PromptedRegistrationIsConfirmed(cfg, Cleanup(cfg, s), script);
    }
  }

  /** With remember-me off the flow never offers to remember the login. */
  lemma NoRememberPromptWhenDisabled(cfg: Config, s: Store, script: seq<Response>)
    requires !cfg.rememberEnabled
    ensures AskRemember() !in GetCredentials(cfg, s, script).shown
  {
    var l, t := PromptedSplit(cfg, Cleanup(cfg, s), script);
    DialogsDistinct();
    assert AskRemember() !in l.shown;
    assert AskRemember() !in t.shown;
  }

  /** How `run` ends relative to `before`, the store the result was accepted
      or saved in. With remember-me on, the last alert presented is the
      remember question, and the pair `c` is remembered exactly when the
      response that alert read from `script` is a yes; otherwise the store is
      `before`. With remember-me off the store is `before`. */
  predicate RememberedOnYes(cfg: Config, before: Store, c: Credential, run: Run, script: seq<Response>)
  {
    if cfg.rememberEnabled then
      && |run.shown| > 0 && run.shown[|run.shown| - 1] == AskRemember()
      && run.store == (if Accepted(AnswerTo(script, |run.shown| - 1))
                       then RememberCredentials(cfg.scriptId, before, c.user, c.pass)
                       else before)
    else
      run.store == before
  }

  /** `RememberedOnYes` from the remember alert at position `k`, the last one. */
  lemma RememberedAt(cfg: Config, before: Store, c: Credential, run: Run, script: seq<Response>, k: nat)
    requires cfg.rememberEnabled ==>
               && |run.shown| == k + 1 && run.shown[k] == AskRemember()
               && run.store == (if Accepted(AnswerTo(script, k))
                                then RememberCredentials(cfg.scriptId, before, c.user, c.pass)
                                else before)
    requires !cfg.rememberEnabled ==> run.store == before
    ensures RememberedOnYes(cfg, before, c, run, script)
  {
  }

  /** The remembered pair is written exactly on a yes to the remember alert:
      on a defined result, the final store is the store the login was
      accepted in or the registration saved in, with the result remembered
      if and only if remember-me is on and the remember alert, the last one
      presented, was answered yes. */
  lemma RememberExactlyOnYes(cfg: Config, s: Store, script: seq<Response>)
    requires !Bypassed(cfg, s)
    ensures var run := GetCredentials(cfg, s, script);
            var s1 := Cleanup(cfg, s);
            && (run.result.Login? ==> RememberedOnYes(cfg, s1, run.result.cred, run, script))
            && (run.result.Register? ==>
                  RememberedOnYes(cfg, SaveCredentials(cfg.scriptId, s1, run.result.cred.user, run.result.cred.pass),
                                  run.result.cred, run, script))
  {
    PromptedLoginRemembersOnYes(cfg, Cleanup(cfg, s), script);
    PromptedRegistrationRemembersOnYes(cfg, Cleanup(cfg, s), script);
  }

  /** A plain login on the first alert is let through exactly when it matches
      an account of the store prompted on: then it is returned after the
      remember question (if enabled), with the pair remembered on a yes;
      otherwise the error alert follows. */
  lemma FirstLoginAccepted(cfg: Config, s: Store, script: seq<Response>, user: string, pass: string)
    requires !Bypassed(cfg, s)
    requires |script| > 0 && script[0] == Response(0, user, pass)
    ensures var run := GetCredentials(cfg, s, script);
            var s1 := Cleanup(cfg, s);
            Registered(cfg.scriptId, s1, user, pass) ==>
              && run.result == Login(Credential(user, pass))
              && run.shown == [FirstLogin()] + (if cfg.rememberEnabled then [AskRemember()] else [])
              && run.store == (if cfg.rememberEnabled && Accepted(AnswerTo(script, 1))
                               then RememberCredentials(cfg.scriptId, s1, user, pass)
                               else s1)
    ensures var run := GetCredentials(cfg, s, script);
            !Registered(cfg.scriptId, Cleanup(cfg, s), user, pass) ==>
              |run.shown| > 1 && run.shown[1] == RetryLogin()
  {
    var s1 := Cleanup(cfg, s);
    var e := Login(Credential(user, pass));
    var l, t := PromptedSplit(cfg, s1, script);
    assert AnswerTo(script, 0) == script[0];
    if Registered(cfg.scriptId, s1, user, pass) {
      assert WrongLoginLoop(cfg.scriptId, s1, e, script, 1) == LoopExit(e, []);
      assert t == RememberStep(cfg, s1, e, script, 1);
    }
  }

  /** An undefined result writes nothing: the final store is the cleaned-up
      store, or that store minus the two account keys of a registration whose
      confirmation was declined. In particular nothing is remembered. */
  lemma UndefinedWritesNothing(cfg: Config, s: Store, script: seq<Response>)
    requires !Bypassed(cfg, s)
    ensures var run := GetCredentials(cfg, s, script);
            var s1 := Cleanup(cfg, s);
            run.result == NoEntry ==>
              || run.store == s1
              || exists c: Credential :: run.store == s1 - {UserKey(cfg.scriptId, c.user), PassKey(cfg.scriptId, c.user, c.pass)}
  {
    var s1 := Cleanup(cfg, s);
    var l, t := PromptedSplit(cfg, s1, script);
    if l.entry.Register? && t.result == NoEntry {
      var c := l.entry.cred;
      assert t == Registration(cfg, s1, c, script, |l.shown|);
      if !CredentialsExist(cfg.scriptId, s1, c.user, c.pass) {
        assert t.store == s1 - {UserKey(cfg.scriptId, c.user), PassKey(cfg.scriptId, c.user, c.pass)};
      }
    }
  }

  /** `RememberExactlyOnYes` for a login returned by the prompting flow. */
  lemma PromptedLoginRemembersOnYes(cfg: Config, s1: Store, script: seq<Response>)
    ensures var run := Prompted(cfg, s1, script);
            run.result.Login? ==> RememberedOnYes(cfg, s1, run.result.cred, run, script)
  {
    var l, t := PromptedSplit(cfg, s1, script);
    if l.entry.Login? {
      assert t == RememberStep(cfg, s1, l.entry, script, |l.shown|);
      var run := Prompted(cfg, s1, script);
      RememberedAt(cfg, s1, l.entry.cred, run, script, |l.shown|);
    }
  }

  /** `RememberExactlyOnYes` for a registration returned by the prompting flow. */
  lemma PromptedRegistrationRemembersOnYes(cfg: Config, s1: Store, script: seq<Response>)
    ensures var run := Prompted(cfg, s1, script);
            run.result.Register? ==>
              RememberedOnYes(cfg, SaveCredentials(cfg.scriptId, s1, run.result.cred.user, run.result.cred.pass),
                              run.result.cred, run, script)
  {
    var l, t := PromptedSplit(cfg, s1, script);
    if l.entry.Register? {
      RegistrationRunRemembers(cfg, s1, l.entry.cred, Prompted(cfg, s1, script), script, l.shown, t);
    }
  }

  /** `RememberedOnYes` for a run made of the login alerts `prefix` followed by
      the registration branch `t`. */
  lemma RegistrationRunRemembers(cfg: Config, s1: Store, c: Credential, run: Run, script: seq<Response>,
                                 prefix: seq<Dialog>, t: Step)
    requires t == Settle(cfg, s1, Register(c), script, |prefix|)
    requires run.result == t.result && run.store == t.store && run.shown == prefix + t.shown
    ensures run.result.Register? ==>
              RememberedOnYes(cfg, SaveCredentials(cfg.scriptId, s1, c.user, c.pass), c, run, script)
  {
    var pos := |prefix|;
    assert t == Registration(cfg, s1, c, script, pos);
    RegistrationRemembersOnYes(cfg, s1, c, script, pos);
    if t.result.Register? {
      if cfg.rememberEnabled {
        assert t.shown == [ConfirmRegistration(), AskRemember()];
        assert run.shown[pos + 1] == t.shown[1];
      }
      RememberedAt(cfg, SaveCredentials(cfg.scriptId, s1, c.user, c.pass), c, run, script, pos + 1);
    }
  }

  /** In the registration branch entered after `pos` alerts, a returned
      registration leaves the saved store, with the pair remembered exactly
      when remember-me is on and the remember alert, presented right after the
      confirmation, read a yes. */
  lemma RegistrationRemembersOnYes(cfg: Config, s: Store, c: Credential, script: seq<Response>, pos: nat)
    ensures var t := Registration(cfg, s, c, script, pos);
            var saved := SaveCredentials(cfg.scriptId, s, c.user, c.pass);
            t.result.Register? ==>
              && (cfg.rememberEnabled ==>
                    && t.shown == [ConfirmRegistration(), AskRemember()]
                    && t.store == (if Accepted(AnswerTo(script, pos + 1))
                                   then RememberCredentials(cfg.scriptId, saved, c.user, c.pass)
                                   else saved))
              && (!cfg.rememberEnabled ==> t.shown == [ConfirmRegistration()] && t.store == saved)
  {
    if !CredentialsExist(cfg.scriptId, s, c.user, c.pass) && Accepted(AnswerTo(script, pos)) {
      var saved := SaveCredentials(cfg.scriptId, s, c.user, c.pass);
      assert NewAccount(cfg, s, c, script, pos).store
             == RememberStep(cfg, saved, Register(c), script, pos + 1).store;
    }
  }

  /** A yes to the remember alert makes the next run of the flow, whatever
      its script, return the same credential as a plain login at once, with
      nothing presented, nothing read and the store unchanged. */
  lemma YesSkipsNextLogin(cfg: Config, s: Store, script: seq<Response>, next: seq<Response>)
    requires !Bypassed(cfg, s) && cfg.rememberEnabled
    ensures var run := GetCredentials(cfg, s, script);
            run.result != NoEntry && Accepted(AnswerTo(script, |run.shown| - 1)) ==>
              GetCredentials(cfg, run.store, next) == Run(Login(run.result.cred), run.store, [], next)
  {
    var run := GetCredentials(cfg, s, script);
    RememberExactlyOnYes(cfg, s, script);
    if run.result.Login? {
      RememberRoundTrip(cfg, Cleanup(cfg, s), run.result.cred.user, run.result.cred.pass, next);
    } else if run.result.Register? {
      var c := run.result.cred;
      RememberRoundTrip(cfg, SaveCredentials(cfg.scriptId, Cleanup(cfg, s), c.user, c.pass), c.user, c.pass, next);
    }
  }

  /** Remember-me round trip: after `rememberCredentials(user, pass)` the flow
      returns exactly that pair, presents nothing, reads no response and leaves
      the store unchanged. */
  lemma RememberRoundTrip(cfg: Config, s: Store, user: string, pass: string, script: seq<Response>)
    requires cfg.rememberEnabled
    ensures var s' := RememberCredentials(cfg.scriptId, s, user, pass);
            GetCredentials(cfg, s', script) == Run(Login(Credential(user, pass)), s', [], script)
  {
  }

  /** The loop on a rejected answer after `pos` alerts, fed only with
      rejected logins, presents one error alert per remaining response plus
      one for the dismissal that an exhausted script reads as, and ends with
      undefined. */
  lemma {:induction false} RejectedLoginsExhaustLoop(id: string, s: Store, e: Entry, script: seq<Response>, pos: nat)
    requires Rejected(id, s, e)
    requires pos <= |script|
    requires forall i :: pos <= i < |script| ==> Rejected(id, s, LoginAnswer(script[i]))
    decreases |script| - pos
    ensures var l := WrongLoginLoop(id, s, e, script, pos);
            l.entry == NoEntry && |l.shown| == |script| - pos + 1
  {
    if pos < |script| {
      RejectedLoginsExhaustLoop(id, s, LoginAnswer(script[pos]), script, pos + 1);
    }
  }

  /** Wrong logins keep the flow prompting: when every scripted response is a
      plain login matching no account, the flow presents the first login alert
      and then one error alert per response, reads the whole script, ends on
      the dismissal of an exhausted script and returns undefined with the
      cleaned-up store. */
  lemma WrongLoginsKeepPrompting(cfg: Config, s: Store, script: seq<Response>)
    requires !Bypassed(cfg, s)
    requires forall i :: 0 <= i < |script| ==>
               script[i].action == 0
               && !CredentialsExist(cfg.scriptId, Cleanup(cfg, s), script[i].user, script[i].pass)
    ensures var run := GetCredentials(cfg, s, script);
            && run.result == NoEntry && run.store == Cleanup(cfg, s) && run.rest == []
            && |run.shown| == |script| + 1 && run.shown[0] == FirstLogin()
            && forall i :: 1 <= i < |run.shown| ==> run.shown[i] == RetryLogin()
  {
    if |script| > 0 {
      RejectedLoginsExhaustLoop(cfg.scriptId, Cleanup(cfg, s), LoginAnswer(script[0]), script, 1);
    }
  }

  /** A first response pressing Register leads straight into the
      registration branch, entered after the one login alert. */
  lemma RegisterFirst(cfg: Config, s: Store, user: string, pass: string, script: seq<Response>)
    requires !Bypassed(cfg, s)
    requires |script| > 0 && script[0] == Response(1, user, pass)
    ensures var t := Registration(cfg, Cleanup(cfg, s), Credential(user, pass), script, 1);
            GetCredentials(cfg, s, script)
            == Run(t.result, t.store, [FirstLogin()] + t.shown, Drop(script, 1 + |t.shown|))
  {
    var e := Register(Credential(user, pass));
    assert WrongLoginLoop(cfg.scriptId, Cleanup(cfg, s), e, script, 1) == LoopExit(e, []);
    assert FirstRound(cfg.scriptId, Cleanup(cfg, s), script) == LoopExit(e, [FirstLogin()]);
  }

  /** Registering an account that already exists is refused after one notice:
      the result is undefined and the store is the cleaned-up store. */
  lemma RegisterExisting(cfg: Config, s: Store, user: string, pass: string, script: seq<Response>)
    requires !Bypassed(cfg, s)
    requires |script| > 0 && script[0] == Response(1, user, pass)
    requires CredentialsExist(cfg.scriptId, Cleanup(cfg, s), user, pass)
    ensures var run := GetCredentials(cfg, s, script);
            && run.result == NoEntry && run.store == Cleanup(cfg, s)
            && run.shown == [FirstLogin(), AlreadyExists()]
  {
    RegisterFirst(cfg, s, user, pass, script);
  }

  /** Registering a new account and then cancelling the confirmation rolls it
      back: the result is undefined, neither account key is left, and the rest
      of the store is the cleaned-up store. */
  lemma RegisterDeclined(cfg: Config, s: Store, user: string, pass: string, script: seq<Response>)
    requires !Bypassed(cfg, s)
    requires |script| > 0 && script[0] == Response(1, user, pass)
    requires !CredentialsExist(cfg.scriptId, Cleanup(cfg, s), user, pass)
    requires |script| == 1 || !Accepted(script[1])
    ensures var run := GetCredentials(cfg, s, script);
            && run.result == NoEntry
            && run.store == Cleanup(cfg, s) - {UserKey(cfg.scriptId, user), PassKey(cfg.scriptId, user, pass)}
            && !CredentialsExist(cfg.scriptId, run.store, user, pass)
            && run.shown == [FirstLogin(), ConfirmRegistration()]
  {
    RegisterFirst(cfg, s, user, pass, script);
    RollbackRemovesAccount(cfg.scriptId, Cleanup(cfg, s), user, pass);
  }

  /** Registering a new account and confirming it returns the credential
      (still tagged as a registration), and the account exists afterwards,
      provided the password is not empty and the account keys do not overlap
      the remember keys. */
  lemma RegisterConfirmed(cfg: Config, s: Store, user: string, pass: string, script: seq<Response>)
    requires !Bypassed(cfg, s)
    requires |script| > 1 && script[0] == Response(1, user, pass) && Accepted(script[1])
    requires !CredentialsExist(cfg.scriptId, Cleanup(cfg, s), user, pass)
    requires pass != ""
    requires {UserKey(cfg.scriptId, user), PassKey(cfg.scriptId, user, pass)}
             !! {RememberUserKey(cfg.scriptId), RememberPassKey(cfg.scriptId)}
    ensures var run := GetCredentials(cfg, s, script);
            && run.result == Register(Credential(user, pass))
            && CredentialsExist(cfg.scriptId, run.store, user, pass)
            && run.shown == [FirstLogin(), ConfirmRegistration()]
                            + (if cfg.rememberEnabled then [AskRemember()] else [])
  {
    RegisterFirst(cfg, s, user, pass, script);
    ConfirmedRegistrationExists(cfg, Cleanup(cfg, s), Credential(user, pass), script, 1);
  }

  /** The registration branch, confirmed, for a new account with a non-empty
      password whose keys avoid the remember keys. */
  lemma ConfirmedRegistrationExists(cfg: Config, s1: Store, c: Credential, script: seq<Response>, pos: nat)
    requires Accepted(AnswerTo(script, pos))
    requires !CredentialsExist(cfg.scriptId, s1, c.user, c.pass)
    requires c.pass != ""
    requires {UserKey(cfg.scriptId, c.user), PassKey(cfg.scriptId, c.user, c.pass)}
             !! {RememberUserKey(cfg.scriptId), RememberPassKey(cfg.scriptId)}
    ensures var t := Registration(cfg, s1, c, script, pos);
            && t.result == Register(c)
            && CredentialsExist(cfg.scriptId, t.store, c.user, c.pass)
            && t.shown == [ConfirmRegistration()] + (if cfg.rememberEnabled then [AskRemember()] else [])
  {
    var id := cfg.scriptId;
    var saved := SaveCredentials(id, s1, c.user, c.pass);
    SaveThenExists(id, s1, c.user, c.pass);
    RememberKeepsApartAccount(id, saved, c.user, c.pass, c.user, c.pass);
    assert NewAccount(cfg, s1, c, script, pos).store == RememberStep(cfg, saved, Register(c), script, pos + 1).store;
  }

  /** Cancelling the registration of a second password for an existing user
      also ends the existing account: the rollback removes the user key that
      both accounts share. */
  lemma CancelledRegistrationEndsSibling(cfg: Config, s: Store, user: string, pass: string, other: string,
                                         script: seq<Response>)
    requires !Bypassed(cfg, s)
    requires |script| > 0 && script[0] == Response(1, user, pass)
    requires Registered(cfg.scriptId, Cleanup(cfg, s), user, other)
    requires !CredentialsExist(cfg.scriptId, Cleanup(cfg, s), user, pass)
    requires |script| == 1 || !Accepted(script[1])
    ensures !CredentialsExist(cfg.scriptId, GetCredentials(cfg, s, script).store, user, other)
  {
    RegisterDeclined(cfg, s, user, pass, script);
  }

  /** Reading stops at the alerts presented: the wrong-login loop entered
      after `pos` alerts, whose alerts all read responses the script has, is
      the same loop on any longer script. */
  lemma {:induction false} LoopReadsOnlyShown(id: string, s: Store, e: Entry, script: seq<Response>,
                                              extra: seq<Response>, pos: nat)
    requires pos + |WrongLoginLoop(id, s, e, script, pos).shown| <= |script|
    decreases |script| - pos
    ensures WrongLoginLoop(id, s, e, script + extra, pos) == WrongLoginLoop(id, s, e, script, pos)
  {
    if Rejected(id, s, e) {
      assert AnswerTo(script + extra, pos) == AnswerTo(script, pos);
      LoopReadsOnlyShown(id, s, LoginAnswer(AnswerTo(script, pos)), script, extra, pos + 1);
    }
  }

  /** The step after the loop, entered after `pos` alerts, is the same on any
      longer script when its own alerts read responses the script has. */
  lemma SettleReadsOnlyShown(cfg: Config, s: Store, e: Entry, script: seq<Response>,
                             extra: seq<Response>, pos: nat)
    requires pos + |Settle(cfg, s, e, script, pos).shown| <= |script|
    ensures Settle(cfg, s, e, script + extra, pos) == Settle(cfg, s, e, script, pos)
  {
    if pos < |script| {
      assert AnswerTo(script + extra, pos) == AnswerTo(script, pos);
    }
    if pos + 1 < |script| {
      assert AnswerTo(script + extra, pos + 1) == AnswerTo(script, pos + 1);
    }
  }

  /** The prompting flow on a script that covers all its alerts is the same
      flow on any longer script. */
  lemma PromptedReadsOnlyShown(cfg: Config, s1: Store, script: seq<Response>, extra: seq<Response>)
    requires |Prompted(cfg, s1, script).shown| <= |script|
    ensures var run := Prompted(cfg, s1, script);
            var run' := Prompted(cfg, s1, script + extra);
            run'.result == run.result && run'.store == run.store && run'.shown == run.shown
  {
    var l, t := PromptedSplit(cfg, s1, script);
    var l', t' := PromptedSplit(cfg, s1, script + extra);
    assert AnswerTo(script + extra, 0) == AnswerTo(script, 0);
    LoopReadsOnlyShown(cfg.scriptId, s1, LoginAnswer(AnswerTo(script, 0)), script, extra, 1);
    assert l' == l;
    SettleReadsOnlyShown(cfg, s1, l.entry, script, extra, |l.shown|);
  }

  /** `getCredentials()` reads no response beyond the alerts it presents:
      when the script covers every alert of a run, appending further
      responses changes neither the result, the store nor the alerts, and the
      appended responses are left unread. */
  lemma ReadsOnlyShown(cfg: Config, s: Store, script: seq<Response>, extra: seq<Response>)
    requires |GetCredentials(cfg, s, script).shown| <= |script|
    ensures var run := GetCredentials(cfg, s, script);
            var run' := GetCredentials(cfg, s, script + extra);
            && run'.result == run.result && run'.store == run.store && run'.shown == run.shown
            && run'.rest == run.rest + extra
  {
    if !Bypassed(cfg, s) {
      PromptedReadsOnlyShown(cfg, Cleanup(cfg, s), script, extra);
      var k := |GetCredentials(cfg, s, script).shown|;
      assert (script + extra)[k..] == script[k..] + extra;
    }
  }
}

=== FILE: keychain.dfy ===
/**
 The host's keychain, reduced to the abstract key/value map that the credential
 gate reads and writes. Persistence and security are the host's business and are
 not modelled; only the observable map and the failure of a read or a removal
 of an absent key are.
 */
module Keychain {
  import opened Wrappers

  /** The whole keychain: every stored key with its string value. */
  type Store = map<string, string>

  /** `Keychain.contains(key)`: true exactly when a read of the key succeeds. */
  function Contains(s: Store, key: string): (b: bool)
    ensures b <==> Get(s, key).Some?
  {
    key in s
  }

  /** `Keychain.get(key)`: `None` stands for the error the host throws on an absent key. */
  function Get(s: Store, key: string): (r: Option<string>)
    ensures r.Some? <==> key in s
    ensures r.Some? ==> r.value == s[key]
  {
    if key in s then Some(s[key]) else None
  }

  /** `Keychain.set(key, value)`: inserts or overwrites. */
  function Set(s: Store, key: string, value: string): (r: Store)
    ensures key in r && r[key] == value
    ensures r.Keys == s.Keys + {key}
    ensures forall k :: k in s && k != key ==> r[k] == s[k]
  {
    s[key := value]
  }

  /** `Keychain.remove(key)`: `None` stands for the error thrown when the key is absent. */
  function Remove(s: Store, key: string): (r: Option<Store>)
    ensures r.Some? <==> key in s
    ensures r.Some? ==> r.value.Keys == s.Keys - {key}
    ensures r.Some? ==> forall k :: k in r.value ==> r.value[k] == s[k]
  {
    if key in s then Some(s - {key}) else None
  }
}

=== FILE: keychain_manager.dfy ===
/**
 The keychain manager: per-account records, the remembered login, and the
 login flow that ties them to the alerts. The script id and the remember-me
 switch, module constants in the program, are the fields of `Config`.

 Keys are plain concatenations: an account (user, pass) lives under
 `id + user` (holding user) and `id + user + pass` (holding pass); the
 remembered login under `id + "rememberUser"` and `id + "rememberPass"`.
 Nothing separates the parts, so distinct accounts and the remembered login
 can share keys; properties that relate them carry that as a precondition.
 */
module KeychainManager {
  import opened Wrappers
  import opened Keychain
  import opened Alerts

  /** The script's configuration: the key prefix and the remember-me switch. */
  datatype Config = Config(scriptId: string, rememberEnabled: bool)

  function UserKey(id: string, user: string): string
  {
    id + user
  }

  function PassKey(id: string, user: string, pass: string): string
  {
    id + user + pass
  }

  function RememberUserKey(id: string): string
  {
    id + "rememberUser"
  }

  function RememberPassKey(id: string): string
  {
    id + "rememberPass"
  }

  /** The account record invariant: both per-account keys are present and
      hold the user and the password respectively. */
  predicate Registered(id: string, s: Store, user: string, pass: string)
  {
    && UserKey(id, user) in s && s[UserKey(id, user)] == user
    && PassKey(id, user, pass) in s && s[PassKey(id, user, pass)] == pass
  }

  /** `credentialsExist(user, pass)`: a read of an absent key throws and the
      catch turns it into false, so the check never fails. */
  function CredentialsExist(id: string, s: Store, user: string, pass: string): (b: bool)
    ensures b <==> Registered(id, s, user, pass)
  {
    match Get(s, UserKey(id, user))
    case None => false
    case Some(storedUser) =>
      if user != storedUser then false
      else
        match Get(s, PassKey(id, user, pass))
        case None => false
        case Some(storedPass) => pass == storedPass
  }

  /** `saveCredentials(user, pass)`: the user key gets the user, then the pass
      key gets the password, overwriting whatever was there. */
  function SaveCredentials(id: string, s: Store, user: string, pass: string): (r: Store)
    ensures r.Keys == s.Keys + {UserKey(id, user), PassKey(id, user, pass)}
    ensures r[PassKey(id, user, pass)] == pass
    ensures pass != "" ==> r[UserKey(id, user)] == user
    ensures forall k :: k in s && k != UserKey(id, user) && k != PassKey(id, user, pass) ==> r[k] == s[k]
  {
    var s1 := Set(s, UserKey(id, user), user);
    Set(s1, PassKey(id, user, pass), pass)
  }

  /** `rememberCredentials(user, pass)`: writes the remembered pair. */
  function RememberCredentials(id: string, s: Store, user: string, pass: string): (r: Store)
    ensures RememberUserKey(id) in r && r[RememberUserKey(id)] == user
    ensures RememberPassKey(id) in r && r[RememberPassKey(id)] == pass
    ensures r.Keys == s.Keys + {RememberUserKey(id), RememberPassKey(id)}
    ensures forall k :: k in s && k != RememberUserKey(id) && k != RememberPassKey(id) ==> r[k] == s[k]
  {
    RememberKeysDistinct(id);
    var s1 := Set(s, RememberUserKey(id), user);
    Set(s1, RememberPassKey(id), pass)
  }

  /** The two remember keys differ (at the character after "remember"). */
  lemma RememberKeysDistinct(id: string)
    ensures RememberUserKey(id) != RememberPassKey(id)
  {
    assert RememberUserKey(id)[|id| + 8] == 'U';
    assert RememberPassKey(id)[|id| + 8] == 'P';
  }

  /** The outcome of a two-key removal: the returned flag and the store left behind. */
  datatype Removal = Removal(ok: bool, store: Store)

  /** The try block shared by `forgetCredentials` and `deleteCredentials`:
      remove `first`, then `second`; the first removal that throws ends the
      block with false, keeping what was already removed. */
  function RemoveBoth(s: Store, first: string, second: string): (r: Removal)
    ensures r.ok <==> first in s && second in s && first != second
    ensures first !in s ==> r.store == s
    ensures first in s ==> r.store == s - {first, second}
  {
    match Remove(s, first)
    case None => Removal(false, s)
    case Some(s1) =>
      match Remove(s1, second)
      case None => Removal(false, s1)
      case Some(s2) => Removal(true, s2)
  }

  /** `forgetCredentials()`: true only when both remember keys were removed; a
      missing user key skips the second removal. */
  function ForgetCredentials(id: string, s: Store): (r: Removal)
    ensures r.ok <==> RememberUserKey(id) in s && RememberPassKey(id) in s
    ensures RememberUserKey(id) !in s ==> r.store == s
    ensures RememberUserKey(id) in s ==> r.store == s - {RememberUserKey(id), RememberPassKey(id)}
  {
    RememberKeysDistinct(id);
    RemoveBoth(s, RememberUserKey(id), RememberPassKey(id))
  }

  /** The two per-account keys coincide exactly when the password is empty. */
  lemma AccountKeysCoincide(id: string, user: string, pass: string)
    ensures UserKey(id, user) == PassKey(id, user, pass) <==> pass == ""
  {
    assert |PassKey(id, user, pass)| == |UserKey(id, user)| + |pass|;
    if pass == "" {
      assert PassKey(id, user, pass) == UserKey(id, user) + pass;
    }
  }

  /** `deleteCredentials(user, pass)`: true only when two distinct account keys
      were removed; with an empty password both keys are one key, so the second
      removal throws and false is returned after the first. */
  function DeleteCredentials(id: string, s: Store, user: string, pass: string): (r: Removal)
    ensures r.ok <==> UserKey(id, user) in s && PassKey(id, user, pass) in s && pass != ""
    ensures UserKey(id, user) !in s ==> r.store == s
    ensures UserKey(id, user) in s ==> r.store == s - {UserKey(id, user), PassKey(id, user, pass)}
  {
    AccountKeysCoincide(id, user, pass);
    RemoveBoth(s, UserKey(id, user), PassKey(id, user, pass))
  }

  /** Saving an account and deleting it again leaves the store minus the two
      account keys, whatever they held before. */
  lemma SaveThenDelete(id: string, s: Store, user: string, pass: string)
    ensures DeleteCredentials(id, SaveCredentials(id, s, user, pass), user, pass).store
            == s - {UserKey(id, user), PassKey(id, user, pass)}
  {
    var saved := SaveCredentials(id, s, user, pass);
    var r := DeleteCredentials(id, saved, user, pass).store;
    var expected := s - {UserKey(id, user), PassKey(id, user, pass)};
    assert r == saved - {UserKey(id, user), PassKey(id, user, pass)};
    assert r.Keys == expected.Keys;
    forall k | k in r
      ensures r[k] == expected[k]
    {
      assert r[k] == saved[k];
    }
  }

  /* ------------------------------------------------------------------ */
  /* getCredentials                                                     */
  /* ------------------------------------------------------------------ */

  /** One run of the login flow: the value returned, the keychain afterwards,
      the alerts presented in order, and the unread rest of the script. */
  datatype Run = Run(result: Entry, store: Store, shown: seq<Dialog>, rest: seq<Response>)

  /** What a part of the flow after the login alerts produces: the value it
      returns, the keychain afterwards, and the alerts it presented. */
  datatype Step = Step(result: Entry, store: Store, shown: seq<Dialog>)

  /** Where the wrong-login loop stops: the answer that ended it and the error
      alerts it presented. */
  datatype LoopExit = LoopExit(entry: Entry, shown: seq<Dialog>)

  /** The first login alert, with the default title and message. */
  function FirstLogin(): (d: Dialog)
    ensures d.title == "Login" && d.message == "Enter your username and password"
    ensures Choices(d) == {0, 1, CancelIndex} && d.actions == ["Login", "Register"] && d.cancel == Some("Cancel")
  {
    LoginDialog(None, None)
  }

  /** The login alert re-presented after a wrong login. */
  function RetryLogin(): (d: Dialog)
    ensures d.title == "Error" && d.message == "Wrong username or password"
    ensures Choices(d) == {0, 1, CancelIndex} && d.actions == ["Login", "Register"] && d.cancel == Some("Cancel")
  {
    LoginDialog(Some("Error"), Some("Wrong username or password"))
  }

  /** The notice for an account that already exists: a single "OK" and no cancel. */
  function AlreadyExists(): (d: Dialog)
    ensures d.title == "Error while registering" && d.message == "This account already exists"
    ensures Choices(d) == {0} && d.actions == ["OK"]
  {
    DecisionDialog("Error while registering", "This account already exists", Some("OK"), None)
  }

  /** The confirmation of a new account: "OK" (0) keeps it, "Cancel" (-1) rolls it back. */
  function ConfirmRegistration(): (d: Dialog)
    ensures d.title == "New Account registered"
    ensures Choices(d) == {0, CancelIndex} && d.actions == ["OK"] && d.cancel == Some("Cancel")
  {
    DecisionDialog("New Account registered", "Your credentials have been stored in the keychain",
                   Some("OK"), Some("Cancel"))
  }

  /** The remember-me question: "Yes" (0) or "No" (-1), with an empty message. */
  function AskRemember(): (d: Dialog)
    ensures d.title == "Remember your Login?" && d.message == ""
    ensures Choices(d) == {0, CancelIndex} && d.actions == ["Yes"] && d.cancel == Some("No")
  {
    DecisionDialog("Remember your Login?", "", Some("Yes"), Some("No"))
  }

  /** The loop condition: a plain login (not `new`, not undefined) that does
      not match a stored account. */
  function Rejected(id: string, s: Store, e: Entry): (b: bool)
    ensures b <==> e.Login? && !Registered(id, s, e.cred.user, e.cred.pass)
  {
    e.Login? && !CredentialsExist(id, s, e.cred.user, e.cred.pass)
  }

  /** Remember-me is on and both remember keys are present: the flow returns
      the remembered pair without presenting anything. The two reads that
      follow then cannot fail. */
  function Bypassed(cfg: Config, s: Store): (b: bool)
    ensures b <==> && cfg.rememberEnabled
                   && Get(s, RememberUserKey(cfg.scriptId)).Some?
                   && Get(s, RememberPassKey(cfg.scriptId)).Some?
  {
    cfg.rememberEnabled && Contains(s, RememberUserKey(cfg.scriptId))
    && Contains(s, RememberPassKey(cfg.scriptId))
  }

  /** The store the prompts work on: with remember-me off, the remembered pair
      is forgotten first and the result of that is ignored. */
  function Cleanup(cfg: Config, s: Store): (r: Store)
    ensures cfg.rememberEnabled ==> r == s
    ensures !cfg.rememberEnabled ==> RememberUserKey(cfg.scriptId) !in r
    ensures !cfg.rememberEnabled && RememberUserKey(cfg.scriptId) in s ==>
              r == s - {RememberUserKey(cfg.scriptId), RememberPassKey(cfg.scriptId)}
    ensures !cfg.rememberEnabled && RememberUserKey(cfg.scriptId) !in s ==> r == s
    ensures forall k :: k in s && k != RememberUserKey(cfg.scriptId) && k != RememberPassKey(cfg.scriptId)
                        ==> k in r && r[k] == s[k]
  {
    if cfg.rememberEnabled then s else ForgetCredentials(cfg.scriptId, s).store
  }

  /** The wrong-login loop, entered with answer `e` after `pos` alerts: while
      the current answer is rejected, present the error login alert and take
      its answer, the response at the next position. It stops at the first
      answer that is undefined, a registration, or a matching login; past the
      end of the script the answer is a dismissal, which stops it. */
  function WrongLoginLoop(id: string, s: Store, e: Entry, script: seq<Response>, pos: nat): (l: LoopExit)
    decreases if pos <= |script| then |script| - pos else 0, if e.Login? then 1 else 0
    ensures !Rejected(id, s, l.entry)
    ensures !Rejected(id, s, e) ==> l == LoopExit(e, [])
    ensures Rejected(id, s, e) ==> |l.shown| > 0
    ensures forall i :: 0 <= i < |l.shown| ==> l.shown[i] == RetryLogin()
    ensures forall i :: pos <= i < pos + |l.shown| - 1 ==> Rejected(id, s, LoginAnswer(AnswerTo(script, i)))
    ensures |l.shown| > 0 ==> l.entry == LoginAnswer(AnswerTo(script, pos + |l.shown| - 1))
  {
    if Rejected(id, s, e) then
      var l := WrongLoginLoop(id, s, LoginAnswer(AnswerTo(script, pos)), script, pos + 1);
      LoopExit(l.entry, [RetryLogin()] + l.shown)
    else
      LoopExit(e, [])
  }

  /** The first login alert and the wrong-login loop after it: the loop's
      exit, with the first alert in front of the alerts presented. Every
      answer but the last was a rejected login; the last one is the exit. */
  function FirstRound(id: string, s: Store, script: seq<Response>): (l: LoopExit)
    ensures |l.shown| > 0 && l.shown[0] == FirstLogin()
    ensures forall i :: 1 <= i < |l.shown| ==> l.shown[i] == RetryLogin()
    ensures forall i :: 0 <= i < |l.shown| - 1 ==> Rejected(id, s, LoginAnswer(AnswerTo(script, i)))
    ensures !Rejected(id, s, l.entry)
    ensures l.entry == LoginAnswer(AnswerTo(script, |l.shown| - 1))
  {
    var l := WrongLoginLoop(id, s, LoginAnswer(AnswerTo(script, 0)), script, 1);
    LoopExit(l.entry, [FirstLogin()] + l.shown)
  }

  /** The remember-me step after an accepted login or a confirmed
      registration, with `pos` alerts presented before it: with remember-me
      on, ask, and write the pair exactly when the answer is yes. */
  function RememberStep(cfg: Config, s: Store, e: Entry, script: seq<Response>, pos: nat): (t: Step)
    requires !e.NoEntry?
    ensures t.result == e
    ensures t.shown == (if cfg.rememberEnabled then [AskRemember()] else [])
    ensures cfg.rememberEnabled && Accepted(AnswerTo(script, pos)) ==>
              t.store == RememberCredentials(cfg.scriptId, s, e.cred.user, e.cred.pass)
    ensures !(cfg.rememberEnabled && Accepted(AnswerTo(script, pos))) ==> t.store == s
  {
    if cfg.rememberEnabled then
      var s' := if Accepted(AnswerTo(script, pos))
                then RememberCredentials(cfg.scriptId, s, e.cred.user, e.cred.pass)
                else s;
      Step(e, s', [AskRemember()])
    else
      Step(e, s, [])
  }

  /** The registration branch for credential `c` on store `s`, with `pos`
      alerts presented before it: an existing account is refused; otherwise
      the account is saved and the user asked to confirm (`NewAccount`). */
  function Registration(cfg: Config, s: Store, c: Credential, script: seq<Response>, pos: nat): (t: Step)
    ensures t.result == NoEntry || t.result == Register(c)
    ensures || t.shown == [AlreadyExists()]
            || t.shown == [ConfirmRegistration()]
            || (cfg.rememberEnabled && t.shown == [ConfirmRegistration(), AskRemember()])
    ensures Registered(cfg.scriptId, s, c.user, c.pass) ==> t == Step(NoEntry, s, [AlreadyExists()])
    ensures !Registered(cfg.scriptId, s, c.user, c.pass) && !Accepted(AnswerTo(script, pos)) ==>
              t == Step(NoEntry, s - {UserKey(cfg.scriptId, c.user), PassKey(cfg.scriptId, c.user, c.pass)},
                        [ConfirmRegistration()])
    ensures !Registered(cfg.scriptId, s, c.user, c.pass) && Accepted(AnswerTo(script, pos)) ==>
              t.result == Register(c)
    ensures t.result.Register? ==>
              && !Registered(cfg.scriptId, s, c.user, c.pass)
              && Accepted(AnswerTo(script, pos))
              && t.shown[0] == ConfirmRegistration()
  {
    if CredentialsExist(cfg.scriptId, s, c.user, c.pass) then
      Step(NoEntry, s, [AlreadyExists()])
    else
      NewAccount(cfg, s, c, script, pos)
  }

  /** The registration of a new account: save it, ask for confirmation, and
      on cancel delete it again, on "OK" go on to the remember-me step with the
      registration as the result. */
  function NewAccount(cfg: Config, s: Store, c: Credential, script: seq<Response>, pos: nat): (t: Step)
    ensures !Accepted(AnswerTo(script, pos)) ==>
              t == Step(NoEntry, s - {UserKey(cfg.scriptId, c.user), PassKey(cfg.scriptId, c.user, c.pass)},
                        [ConfirmRegistration()])
    ensures Accepted(AnswerTo(script, pos)) ==>
              && t.result == Register(c)
              && t.shown == [ConfirmRegistration()] + (if cfg.rememberEnabled then [AskRemember()] else [])
  {
    var saved := SaveCredentials(cfg.scriptId, s, c.user, c.pass);
    if !Accepted(AnswerTo(script, pos)) then
      SaveThenDelete(cfg.scriptId, s, c.user, c.pass);
      Step(NoEntry, DeleteCredentials(cfg.scriptId, saved, c.user, c.pass).store, [ConfirmRegistration()])
    else
      var t := RememberStep(cfg, saved, Register(c), script, pos + 1);
      Step(t.result, t.store, [ConfirmRegistration()] + t.shown)
  }

  /** What follows the loop for its exit answer `e`, with `pos` alerts
      presented before it: undefined is returned as is, a registration goes
      through the registration branch, a login through the remember-me step.
      The alerts presented are none for undefined, the remember question (if
      enabled) for a login, and for a registration the already-exists notice,
      or the confirmation possibly followed by the remember question. */
  function Settle(cfg: Config, s: Store, e: Entry, script: seq<Response>, pos: nat): (t: Step)
    ensures t.result == e || t.result == NoEntry
    ensures e.NoEntry? ==> t == Step(NoEntry, s, [])
    ensures e.Login? ==> t.result == e
    ensures e.Register? && !Registered(cfg.scriptId, s, e.cred.user, e.cred.pass) && Accepted(AnswerTo(script, pos))
            ==> t.result == e
    ensures e.Login? ==> t.shown == (if cfg.rememberEnabled then [AskRemember()] else [])
    ensures e.Register? ==>
              || t.shown == [AlreadyExists()]
              || t.shown == [ConfirmRegistration()]
              || (cfg.rememberEnabled && t.shown == [ConfirmRegistration(), AskRemember()])
    ensures t.result.Register? ==>
              && !Registered(cfg.scriptId, s, t.result.cred.user, t.result.cred.pass)
              && Accepted(AnswerTo(script, pos))
              && t.shown[0] == ConfirmRegistration()
  {
    match e
    case NoEntry => Step(NoEntry, s, [])
    case Register(c) => Registration(cfg, s, c, script, pos)
    case Login(c) => RememberStep(cfg, s, e, script, pos)
  }

  /** The prompting part of `getCredentials()` on the cleaned-up store `s`:
      the first login alert, the wrong-login loop, then the registration or
      remember-me steps. The alerts read the script in order, one response
      each. */
  function Prompted(cfg: Config, s: Store, script: seq<Response>): (run: Run)
    ensures |run.shown| > 0 && run.shown[0] == FirstLogin()
    ensures run.rest == Drop(script, |run.shown|)
  {
    var l := FirstRound(cfg.scriptId, s, script);
    var t := Settle(cfg, s, l.entry, script, |l.shown|);
    var shown := l.shown + t.shown;
    Run(t.result, t.store, shown, Drop(script, |shown|))
  }

  /** `getCredentials()` run against keychain `s` and the script of user
      responses: the remembered pair when remember-me is on and both remember
      keys exist (nothing presented, nothing read, nothing written), otherwise
      the prompting flow on the cleaned-up store. */
  function GetCredentials(cfg: Config, s: Store, script: seq<Response>): (run: Run)
    ensures run.shown == [] <==> Bypassed(cfg, s)
    ensures run.rest == Drop(script, |run.shown|)
    ensures Bypassed(cfg, s) ==>
              run == Run(Login(Credential(s[RememberUserKey(cfg.scriptId)], s[RememberPassKey(cfg.scriptId)])),
                         s, [], script)
    ensures !Bypassed(cfg, s) ==> run.shown[0] == FirstLogin()
  {
    var id := cfg.scriptId;
    if Bypassed(cfg, s) then
      Run(Login(Credential(s[RememberUserKey(id)], s[RememberPassKey(id)])), s, [], script)
    else
      Prompted(cfg, Cleanup(cfg, s), script)
  }
}

=== FILE: manager_properties.dfy ===
/**
 Properties relating the keychain manager's store operations to each other:
 save then check, registration rollback, forgetting twice, and how the
 concatenated keys let distinct records interfere.
 */
module ManagerProperties {
  import opened Keychain
  import opened KeychainManager

  /** After `saveCredentials(user, pass)` the account exists, except when the
      password is empty and the user is not: then both writes hit one key and
      the second overwrites the user with the empty password. */
  lemma SaveThenExists(id: string, s: Store, user: string, pass: string)
    ensures CredentialsExist(id, SaveCredentials(id, s, user, pass), user, pass) <==> pass != "" || user == ""
  {
    AccountKeysCoincide(id, user, pass);
  }

  /** Saving a second password for a user keeps the first one valid: several
      passwords per user can coexist. */
  lemma SaveKeepsOtherPassword(id: string, s: Store, user: string, pass: string, other: string)
    requires Registered(id, s, user, other)
    requires pass != "" && other != "" && pass != other
    ensures Registered(id, SaveCredentials(id, s, user, pass), user, other)
    ensures Registered(id, SaveCredentials(id, s, user, pass), user, pass)
  {
    AccountKeysCoincide(id, user, other);
    assert PassKey(id, user, other)[|id + user|..] == other;
    assert PassKey(id, user, pass)[|id + user|..] == pass;
  }

  /** Two records whose keys avoid each other. */
  predicate Apart(id: string, user: string, pass: string, user': string, pass': string)
  {
    {UserKey(id, user), PassKey(id, user, pass)} !! {UserKey(id, user'), PassKey(id, user', pass')}
  }

  /** Saving an account leaves every account whose keys it does not share intact. */
  lemma SaveKeepsApartAccount(id: string, s: Store, user: string, pass: string, user': string, pass': string)
    requires Apart(id, user, pass, user', pass')
    ensures CredentialsExist(id, SaveCredentials(id, s, user, pass), user', pass')
            <==> CredentialsExist(id, s, user', pass')
  {
  }

  /** Remembering a pair leaves every account whose keys avoid the remember
      keys intact. */
  lemma RememberKeepsApartAccount(id: string, s: Store, user: string, pass: string, user': string, pass': string)
    requires {UserKey(id, user'), PassKey(id, user', pass')} !! {RememberUserKey(id), RememberPassKey(id)}
    ensures CredentialsExist(id, RememberCredentials(id, s, user, pass), user', pass')
            <==> CredentialsExist(id, s, user', pass')
  {
  }

  /** Registration rollback: saving and then deleting an account leaves the
      store as it was minus the two account keys, so the account no longer
      exists, and no other key is touched. */
  lemma {:induction false} RollbackRemovesAccount(id: string, s: Store, user: string, pass: string)
    ensures DeleteCredentials(id, SaveCredentials(id, s, user, pass), user, pass).store
            == s - {UserKey(id, user), PassKey(id, user, pass)}
    ensures !CredentialsExist(id, DeleteCredentials(id, SaveCredentials(id, s, user, pass), user, pass).store,
                              user, pass)
    ensures DeleteCredentials(id, SaveCredentials(id, s, user, pass), user, pass).ok <==> pass != ""
  {
    SaveThenDelete(id, s, user, pass);
    AccountKeysCoincide(id, user, pass);
  }

  /** The user key is shared by every password of a user, so rolling back a
      registration of (user, pass) also ends an existing account (user, other). */
  lemma RollbackEndsSiblingAccount(id: string, s: Store, user: string, pass: string, other: string)
    requires Registered(id, s, user, other)
    ensures !CredentialsExist(id, DeleteCredentials(id, SaveCredentials(id, s, user, pass), user, pass).store,
                              user, other)
  {
    RollbackRemovesAccount(id, s, user, pass);
  }

  /** Forgetting twice leaves the store forgetting once leaves, and the second
      call reports false. */
  lemma ForgetTwice(id: string, s: Store)
    ensures ForgetCredentials(id, ForgetCredentials(id, s).store).store == ForgetCredentials(id, s).store
    ensures !ForgetCredentials(id, ForgetCredentials(id, s).store).ok
  {
  }

  /** Forgetting touches nothing but the two remember keys. */
  lemma ForgetFrame(id: string, s: Store, k: string)
    requires k != RememberUserKey(id) && k != RememberPassKey(id)
    ensures k in ForgetCredentials(id, s).store <==> k in s
    ensures k in s ==> ForgetCredentials(id, s).store[k] == s[k]
  {
  }

  /** A remembered password without a remembered user survives forgetting:
      the removal of the user key throws first. */
  lemma ForgetKeepsStrayPass(id: string, s: Store)
    requires RememberUserKey(id) !in s && RememberPassKey(id) in s
    ensures RememberPassKey(id) in ForgetCredentials(id, s).store
    ensures !ForgetCredentials(id, s).ok
  {
  }

  /** Remember round trip at the store level: the remembered pair reads back exactly. */
  lemma RememberReadsBack(id: string, s: Store, user: string, pass: string)
    ensures Get(RememberCredentials(id, s, user, pass), RememberUserKey(id)).value == user
    ensures Get(RememberCredentials(id, s, user, pass), RememberPassKey(id)).value == pass
    ensures ForgetCredentials(id, RememberCredentials(id, s, user, pass)).ok
  {
  }
}

=== FILE: scenarios.dfy ===
/**
 Concrete runs of the login flow with the script id "script_name", one per
 usage scenario of the keychain manager.
 */
module Scenarios {
  import opened Wrappers
  import opened Keychain
  import opened Alerts
  import opened KeychainManager
  import opened GateProperties

  function Cfg(): Config
  {
    Config("script_name", true)
  }

  /** The keys of the scenarios, spelled out. */
  lemma Keys()
    ensures UserKey("script_name", "bob") == "script_namebob"
    ensures PassKey("script_name", "bob", "pw1") == "script_namebobpw1"
    ensures PassKey("script_name", "bob", "pw2") == "script_namebobpw2"
    ensures UserKey("script_name", "dave") == "script_namedave"
    ensures PassKey("script_name", "dave", "") == "script_namedave"
    ensures RememberUserKey("script_name") == "script_namerememberUser"
    ensures RememberPassKey("script_name") == "script_namerememberPass"
    ensures UserKey("script_name", "erin") == "script_nameerin"
    ensures PassKey("script_name", "erin", "pw4") == "script_nameerinpw4"
  {
    assert "script_name" + "dave" + "" == "script_namedave";
  }

  /** An unregistered login is answered with the error alert until the user
      cancels. */
  lemma AliceKeepsBeingAsked()
    ensures var run := GetCredentials(Cfg(), map[], [Response(0, "alice", "pw1"), Response(0, "alice", "pw1"),
                                                    Response(CancelIndex, "", "")]);
            && run.result == NoEntry
            && run.shown == [FirstLogin(), RetryLogin(), RetryLogin()]
            && run.store == map[]
  {
    var alice := Login(Credential("alice", "pw1"));
    assert !CredentialsExist("script_name", map[], "alice", "pw1");
    var script := [Response(0, "alice", "pw1"), Response(0, "alice", "pw1"), Response(CancelIndex, "", "")];
    assert WrongLoginLoop("script_name", map[], NoEntry, script, 3) == LoopExit(NoEntry, []);
    assert WrongLoginLoop("script_name", map[], alice, script, 2) == LoopExit(NoEntry, [RetryLogin()]);
    assert WrongLoginLoop("script_name", map[], alice, script, 1) == LoopExit(NoEntry, [RetryLogin(), RetryLogin()]);
  }

  /** Bob's stored account lets him in on the first alert; he declines to be
      remembered, so the keychain is unchanged. */
  lemma BobLogsIn()
    ensures var s := map["script_namebob" := "bob", "script_namebobpw1" := "pw1"];
            var run := GetCredentials(Cfg(), s, [Response(0, "bob", "pw1"), Response(CancelIndex, "", "")]);
            && run.result == Login(Credential("bob", "pw1"))
            && run.shown == [FirstLogin(), AskRemember()]
            && run.store == s
  {
    Keys();
    var s := map["script_namebob" := "bob", "script_namebobpw1" := "pw1"];
    FirstLoginAccepted(Cfg(), s, [Response(0, "bob", "pw1"), Response(CancelIndex, "", "")], "bob", "pw1");
  }

  /** A new registration that is confirmed (and not remembered) is returned
      and stored under "script_namebob" and "script_namebobpw2". */
  lemma BobRegistersAndConfirms()
    ensures var run := GetCredentials(Cfg(), map[], [Response(1, "bob", "pw2"), Response(0, "", ""),
                                                    Response(CancelIndex, "", "")]);
            && run.result == Register(Credential("bob", "pw2"))
            && run.store == map["script_namebob" := "bob", "script_namebobpw2" := "pw2"]
            && run.shown == [FirstLogin(), ConfirmRegistration(), AskRemember()]
  {
    Keys();
  }

  /** The same registration with the confirmation cancelled leaves nothing behind. */
  lemma BobRegistersAndCancels()
    ensures var run := GetCredentials(Cfg(), map[], [Response(1, "bob", "pw2"), Response(CancelIndex, "", "")]);
            && run.result == NoEntry
            && run.store == map[]
  {
    RegisterDeclined(Cfg(), map[], "bob", "pw2", [Response(1, "bob", "pw2"), Response(CancelIndex, "", "")]);
  }

  /** Registering bob with a second password and cancelling ends bob's first account. */
  lemma BobLosesFirstPassword()
    ensures var before := map["script_namebob" := "bob", "script_namebobpw1" := "pw1"];
            var run := GetCredentials(Cfg(), before, [Response(1, "bob", "pw2"), Response(CancelIndex, "", "")]);
            && CredentialsExist("script_name", before, "bob", "pw1")
            && !CredentialsExist("script_name", run.store, "bob", "pw1")
            && run.store == map["script_namebobpw1" := "pw1"]
  {
    Keys();
    var before := map["script_namebob" := "bob", "script_namebobpw1" := "pw1"];
    assert "script_namebob" != "script_namebobpw1";
    assert "script_namebobpw1" != "script_namebobpw2";
    assert before - {"script_namebob", "script_namebobpw2"} == map["script_namebobpw1" := "pw1"];
    CancelledRegistrationEndsSibling(Cfg(), before, "bob", "pw2", "pw1",
                                     [Response(1, "bob", "pw2"), Response(CancelIndex, "", "")]);
  }

  /** A remembered pair is returned with no alert presented. */
  lemma CarolIsRemembered()
    ensures var s := map["script_namerememberUser" := "carol", "script_namerememberPass" := "pw3"];
            GetCredentials(Cfg(), s, []) == Run(Login(Credential("carol", "pw3")), s, [], [])
  {
    Keys();
  }

  /** Erin registers, confirms and answers yes to the remember question: her
      account and the remembered pair are stored, and the next run returns
      her credential with no alert and no response read. */
  lemma ErinIsRememberedNextTime()
    ensures var run := GetCredentials(Cfg(), map[], [Response(1, "erin", "pw4"), Response(0, "", ""),
                                                    Response(0, "", "")]);
            && run.result == Register(Credential("erin", "pw4"))
            && run.shown == [FirstLogin(), ConfirmRegistration(), AskRemember()]
            && run.store == map["script_nameerin" := "erin", "script_nameerinpw4" := "pw4",
                                "script_namerememberUser" := "erin", "script_namerememberPass" := "pw4"]
            && GetCredentials(Cfg(), run.store, [Response(CancelIndex, "", "")])
               == Run(Login(Credential("erin", "pw4")), run.store, [], [Response(CancelIndex, "", "")])
  {
    Keys();
    var script := [Response(1, "erin", "pw4"), Response(0, "", ""), Response(0, "", "")];
    var c := Credential("erin", "pw4");
    var saved := SaveCredentials("script_name", map[], "erin", "pw4");
    assert Cleanup(Cfg(), map[]) == map[];
    RegisterFirst(Cfg(), map[], "erin", "pw4", script);
    ConfirmedRegistrationExists(Cfg(), map[], c, script, 1);
    RegistrationRemembersOnYes(Cfg(), map[], c, script, 1);
    var t := Registration(Cfg(), map[], c, script, 1);
    assert t.result == Register(c) && t.shown == [ConfirmRegistration(), AskRemember()];
    assert t.store == RememberCredentials("script_name", saved, "erin", "pw4");
    RememberRoundTrip(Cfg(), saved, "erin", "pw4", [Response(CancelIndex, "", "")]);
  }

  /** A decision alert with neither label shows the lone "OK", which resolves to true. */
  lemma LoneOkIsYes()
    ensures DecisionDialog("Note", "Done", None, None).actions == ["OK"]
    ensures DecisionAlert(Some("Note"), Some("Done"), None, None, Response(0, "", "")) == Success(true)
    ensures DecisionAlert(None, Some("Done"), None, None, Response(0, "", "")).Failure?
  {
  }

  /** An empty password makes both account keys one key: the registration is
      accepted and returned, yet the account never passes the login check. */
  lemma EmptyPasswordNeverLogsIn()
    ensures var run := GetCredentials(Cfg(), map[], [Response(1, "dave", ""), Response(0, "", ""),
                                                    Response(CancelIndex, "", "")]);
            && run.result == Register(Credential("dave", ""))
            && !CredentialsExist("script_name", run.store, "dave", "")
  {
    Keys();
  }
}

=== FILE: wrappers.dfy ===
/** Small failure-carrying datatypes shared by the model. */
module Wrappers {

  /** A value that may be missing: JavaScript's `undefined` for an optional argument. */
  datatype Option<+T> = None | Some(value: T) {

    /** The carried value, or `default` when there is none. */
    function GetOr(default: T): T
    {
      match this
      case Some(v) => v
      case None => default
    }
  }

  /** The result of a call that either returns a value or throws an error. */
  datatype Result<+R, +E> = Success(value: R) | Failure(error: E)
}
